=== FILE: README.md ===
# Value codec of a monday.com GraphQL client, in Dafny

This project models the logic in `monday.go` of a small Go client for the monday.com
work-management API. That logic converts between a board's per-column wire values and
application values:

- **Column catalog.** `CreateColumnMap` folds a board's fetched columns into a map
  keyed by column id (module `ColumnCatalog`).
- **Value builders.** `BuildDate`, `BuildDateTime`, `BuildStatusIndex`, `BuildCheckbox`
  and `BuildPeople` construct the outbound wire shapes (module `Builders`).
- **Value decoder.** `DecodeValue` interprets an item's opaque JSON column value by the
  type of its column. `text`, `color`, `boolean` and `date` give a string. `multiple-person`
  and `dropdown` give a list of strings, through `DecodePeople` and `DecodeDropDown`.
  An unknown column id or an unhandled type gives an error (module `Codec`).
- **Label tables.** `DecodeLabels` reads a status or dropdown column's settings and
  emits its (index, name) pairs (module `Labels`).

Supporting modules:
- `GoJson` models the parsed JSON document, and how Go's `json.Unmarshal` stores it into
  typed destinations:
  - a missing member or `null` leaves the zero value;
  - a value of the wrong kind leaves the zero value and records a type error, and
    decoding carries on;
  - a syntax error leaves the destination untouched.
- `MondayTypes` holds the records and their JSON tags.
- `Decimal` holds `strconv.Itoa` and its inverse.

Turning JSON text into a document is not modelled. It is a function parameter, `parse`,
that yields the document or `None` for a syntax error. Encoding is modelled at the level
of documents (`DateTimeJson`, `PeopleJson`, ...). Each encoder is proved against its
decoder: its ensures states that the decoder returns the encoded value. The round-trip lemmas therefore read: "if the value's text parses to the
document of what the builder built, the decoder yields the builder's input".

In places the code does not do what a caller might expect of a codec. The model
follows the code:
- A `multiple-person` or `dropdown` value that fails to unmarshal gives a nil list and
  **no** error. It is not reported as a malformed value.
- A `color` value that fails to unmarshal gives `"0"` together with the error. This holds
  for a syntax error and for a type error alike.
- `DecodeLabels` on a type other than `color` or `dropdown` emits nothing and reports
  nothing. It does not report an unsupported type.
- `CreateColumnMap` can fail: it passes on the fetch error with an empty map.
- `DecodeLabels` stops the process (`log.Fatal`) on settings it cannot decode. Here this
  is a returned error, with nothing emitted.

## Model

| member | source | states |
|---|---|---|
| `Decimal.Itoa` | monday.go:339 | strconv.Itoa always gives canonical decimal text: optional '-', no leading zero, never "-0"; it starts with '-' exactly for negative numbers |
| `Decimal.ItoaRoundTrip` | monday.go:339 | reading back the text Itoa writes gives the same number |
| `Decimal.ItoaInjective` | monday.go:368 | distinct ids give distinct decimal texts |
| `Decimal.CanonicalIsItoa` | monday.go:385 | every canonical decimal text is Itoa of its value, so Itoa is a bijection onto canonical texts |
| `ColumnCatalog.CreateColumnMap` | monday.go:163-175 | on a fetch error: empty map and that error; otherwise the map after inserting every column in order, and no error |
| `ColumnCatalog.CatalogKeys` | monday.go:171-173 | the catalog's keys are exactly the ids of the columns |
| `ColumnCatalog.CatalogEntries` | monday.go:171-173 | each key maps to one of the fetched columns, and that column carries the key as its id |
| `ColumnCatalog.CatalogLastWins` | monday.go:171-173 | among columns with the same id, the last one is kept |
| `Builders.BuildPeople` | monday.go:200-207 | exactly one entry per user id; entry i has id userIds[i]; every entry has kind "person"; no ids gives no entries |
| `MondayTypes.DateTimeJson` | monday.go:48-51 | the document of a DateTime decodes back to it, with no error (tags "date", "time") |
| `MondayTypes.StatusIndexJson` | monday.go:52-54 | the document of a StatusIndex decodes back to it (tag "index") |
| `MondayTypes.PersonTeamJson` | monday.go:55-58 | the document of a PersonTeam decodes back to it (tags "id", "kind") |
| `MondayTypes.PeopleJson` | monday.go:59-61 | the document of a People value decodes back to it, entries in order (tag "personsAndTeams") |
| `MondayTypes.CheckboxJson` | monday.go:62-64 | the document of a Checkbox decodes back to it (tag "checked") |
| `Codec.DecodeValue` | monday.go:323-356 | empty value: empty scalar, nil list, no error, whatever the map holds; InvalidColumnId exactly when a non-empty value's id is not in the map; ValueTypeNotHandled, carrying the column's type, exactly when that type is none of the six handled ones, with both results empty; a color, boolean or date column reports exactly the error json.Unmarshal returns for its wire shape, so an error when the value does not decode and none when it does; a non-empty scalar only for text/color/boolean/date columns; a list only for multiple-person/dropdown columns, which never report an error and give exactly the list DecodePeople or DecodeDropDown returns (nil when Unmarshal fails); a text value comes back verbatim |
| `Codec.DecodePeople` | monday.go:359-371 | returns the list that the specification function PeopleIds gives (nil when Unmarshal fails, else the ids' decimal texts) |
| `Codec.DecodeDropDown` | monday.go:374-388 | returns the list that the specification function DropDownIds gives (nil when Unmarshal fails, else the ids' decimal texts) |
| `Codec.DecimalsInOrder` | monday.go:366-369 | converting ids to text keeps the length, and entry i reads back as id i |
| `Codec.PeopleIdsInOrder` | monday.go:359-371 | nil exactly when Unmarshal reports an error; otherwise one entry per decoded person or team, in order, reading back as its id (kind is dropped) |
| `Codec.DropDownIdsInOrder` | monday.go:374-388 | nil exactly when Unmarshal reports an error; otherwise one entry per decoded id, in order, reading back as that id |
| `Codec.StatusIndexRoundTrip` | monday.go:194-196 | a color value built by BuildStatusIndex(i) decodes (lines 336-339) to Itoa(i) with no error, and that text reads back as i |
| `Codec.DateRoundTrip` | monday.go:188-190 | a date value built by BuildDate(d) decodes (lines 344-347) to d with no error |
| `Codec.DateTimeRoundTrip` | monday.go:191-193 | a date value built by BuildDateTime(d, t) decodes to d: the time is dropped |
| `Codec.CheckboxRoundTrip` | monday.go:197-199 | a checkbox value built by BuildCheckbox(s) decodes (lines 340-343) to s |
| `Codec.PeopleRoundTrip` | monday.go:200-206 | a people value built from user ids decodes (line 349) to their decimal texts in order, each reading back as its id |
| `Codec.CheckboxWithoutCheckedIsEmpty` | monday.go:340-343 | a checkbox value with no "checked" member decodes to "" with no error; other members are ignored |
| `Codec.StatusIndexOtherMembersIgnored` | monday.go:336-339 | a status value decodes to the decimal text of its "index" member, whatever other members it has |
| `Codec.StatusIndexMissingIsZero` | monday.go:336-339 | a status value with no "index" member, or a null one, decodes to "0" with no error |
| `Codec.DateOtherMembersIgnored` | monday.go:344-347 | a date value decodes to its "date" member ("" when absent), whatever other members it has, when "time" is absent or a string |
| `Codec.CheckboxOtherMembersIgnored` | monday.go:340-343 | a checkbox value decodes to its "checked" text with no error, whatever other members it has |
| `Codec.CheckboxUnmarshalErrorIsEmpty` | monday.go:340-343 | a checkbox value json.Unmarshal rejects yields "" together with an error |
| `Codec.DateKeptBesideTimeError` | monday.go:344-347 | a date value yields its "date" text even when "time" has the wrong type; an error is reported exactly when "time" is present and neither a string nor null |
| `Codec.DropDownIdsDecode` | monday.go:350-351 | a dropdown value whose "ids" are in-range integers decodes to their decimal texts in order, with no error |
| `Codec.ColorUnmarshalErrorYieldsZero` | monday.go:336-339 | a color value that json.Unmarshal rejects (a syntax error, or a type error such as a string index) yields "0" together with that error |
| `Codec.ColorTypeErrorExample` | monday.go:336-339 | `{"index": "3"}` on a color column yields "0" with a type error |
| `Codec.PeopleFailureIsSilent` | monday.go:359-365 | a people value that json.Unmarshal rejects, for bad syntax or a wrongly typed member, gives a nil list and no error (lines 348-349) |
| `Codec.DropDownFailureIsSilent` | monday.go:374-382 | a dropdown value that json.Unmarshal rejects gives a nil list and no error (lines 350-351) |
| `Codec.PersonAndTeamExample` | monday.go:359-371 | a person with id 11 and a team with id 22 decode to ["11", "22"] |
| `Labels.PrintStatusLabels` | monday.go:410-412 | one pair per key of the labels map, each with that key's name, in no promised order |
| `Labels.PrintDropdownLabels` | monday.go:419-421 | one pair per dropdown entry, in the settings' order, with the id in decimal |
| `Labels.DecodeLabels` | monday.go:392-423 | color: one (key, name) pair per key of `labels`; dropdown: (Itoa(id), name) pairs in source order; settings that fail to unmarshal (including a badly typed label_positions_v2) give the error and nothing else; any other type gives nothing and no error |

## Left out

- The GraphQL client is not modelled: `Client`, `NewClient`, `runRequest`, `GetUsers`, `GetBoards`, `GetGroups`, `GetColumns`, `GetItems`, `AddItem` and `AddItemUpdate`. They are network calls through an external library. `CreateColumnMap` takes the result of `GetColumns` as its inputs.
- Parsing and writing JSON text is left out. `encoding/json` is foreign code, and `json.Marshal` in `AddItem` is part of it. Parsing is the `parse` parameter. Encoding is modelled only at the level of documents.
- Two details of `encoding/json` are not modelled: the case-insensitive matching of keys to struct fields, and duplicate object keys. Go decodes each duplicate in turn into the same field: the field keeps the last well-typed member's value, and Unmarshal reports the first type error. A single map entry per key cannot express both, so the model's objects hold one member per key, and struct tags are matched exactly.
- Which of several type errors `json.Unmarshal` reports, and its error texts, are not modelled. The model records only syntax error versus type error.
- `log.Println`, `fmt.Println` and `log.Fatal` are not modelled as output. `DecodeLabels` returns the printed pairs; a fatal stop becomes a returned error.
- Go's map iteration order is not modelled. `PrintStatusLabels` takes keys in an arbitrary order.
- Go's `int` is taken to be 64 bits wide.
- `BuildDate`, `BuildDateTime`, `BuildStatusIndex`, `BuildCheckbox`: no contract of their own, since each is a single constructor call. What they mean is stated by the round-trip lemmas in `Codec`.

=== FILE: builders.dfy ===
/** Constructors of the outbound wire shapes, used when assembling an item's column
    values before it is created. */
module Builders {
  import opened GoJson
  import opened MondayTypes

  /** A date with no time of day. */
  function BuildDate(date: string): DateTime
  {
    DateTime(date, "")
  }

  function BuildDateTime(date: string, time: string): DateTime
  {
    DateTime(date, time)
  }

  /** A status value selecting the label at `index`; the index is not checked
      against the column's labels. */
  function BuildStatusIndex(index: GoInt): StatusIndex
  {
    StatusIndex(index)
  }

  /** A checkbox value: the text is passed through, not turned into a boolean. */
  function BuildCheckbox(checked: string): Checkbox
  {
    Checkbox(checked)
  }

  /** `people` lists the given users, in order, each as a person. */
  predicate PersonsInOrder(people: People, userIds: seq<GoInt>)
  {
    && |people.personsAndTeams| == |userIds|
    && forall i :: 0 <= i < |userIds| ==> people.personsAndTeams[i] == PersonTeam(userIds[i], "person")
  }

  /** A people value for the given user ids, filled into a slice of their length. */
  method BuildPeople(userIds: seq<GoInt>) returns (response: People)
    ensures PersonsInOrder(response, userIds)
    ensures forall e :: e in response.personsAndTeams ==> e.kind == "person"
    ensures userIds == [] ==> response.personsAndTeams == []
  {
    var entries := new PersonTeam[|userIds|](_ => PersonTeam(0, ""));
    for i := 0 to |userIds|
      invariant forall k :: 0 <= k < i ==> entries[k] == PersonTeam(userIds[k], "person")
    {
      entries[i] := PersonTeam(userIds[i], "person");
    }
    response := People(entries[..]);
  }
}

=== FILE: codec.dfy ===
/** The value codec: turns an item's opaque column value into a string, or a list of
    strings, according to the type of its column. */
module Codec {
  import opened Wrappers
  import opened GoJson
  import opened Decimal
  import opened MondayTypes
  import opened Builders

  /** DecodeValue's three results: the scalar, the list (None is Go's nil) and the error. */
  datatype DecodeResult = DecodeResult(result1: string, result2: Option<seq<string>>, err: Option<Error>)

  const ScalarTypes: set<string> := {"text", "color", "boolean", "date"}
  const ListTypes: set<string> := {"multiple-person", "dropdown"}

  /** The decimal text of each id, in order. */
  function Decimals(ids: seq<GoInt>): seq<string>
  {
    seq(|ids|, i requires 0 <= i < |ids| => Itoa(ids[i]))
  }

  /** The ids of a people value's entries, in order. */
  function IdsOf(people: People): seq<GoInt>
  {
    var ps := people.personsAndTeams;
    seq(|ps|, i requires 0 <= i < |ps| => ps[i].id)
  }

  /** The list DecodePeople returns: nil when Unmarshal fails, else one entry per
      person or team. */
  function PeopleIds(valueIn: string, parse: Parser): Option<seq<string>>
  {
    var u := Unmarshal(valueIn, parse, PeopleOf, People([]));
    if u.err.Some? then None else Some(Decimals(IdsOf(u.value)))
  }

  /** The `{"ids": [...]}` shape of a dropdown value. */
  function DropDownOf(j: Json): Decoded<seq<GoInt>>
  {
    StructOf(j, (m: map<string, Json>) => SliceOf(Member(m, "ids"), IntOf), [])
  }

  /** The list DecodeDropDown returns: nil when Unmarshal fails, else one entry per id. */
  function DropDownIds(valueIn: string, parse: Parser): Option<seq<string>>
  {
    var u := Unmarshal(valueIn, parse, DropDownOf, []);
    if u.err.Some? then None else Some(Decimals(u.value))
  }

  /** DecodeValue: dispatch on the type of the value's column. */
  function DecodeValue(columnMap: ColumnMap, columnValue: ColumnValue, parse: Parser): (r: DecodeResult)
    // an unset value is not an error, whatever the map holds
    ensures columnValue.value == "" ==> r == DecodeResult("", None, None)
    // an unknown column, and only that, is reported as such
    ensures r.err == Some(InvalidColumnId(columnValue.id)) <==> columnValue.value != "" && columnValue.id !in columnMap
    // an unhandled type, and only that, is reported as such, with nothing else set
    ensures (r.err.Some? && r.err.value.ValueTypeNotHandled?) <==>
              columnValue.value != "" && columnValue.id in columnMap
              && columnMap[columnValue.id].columnType !in ScalarTypes + ListTypes
    ensures r.err.Some? && r.err.value.ValueTypeNotHandled? ==>
              r.err == Some(ValueTypeNotHandled(columnMap[columnValue.id].columnType))
    ensures r.err.Some? && !r.err.value.Json? ==> r.result1 == "" && r.result2 == None
    // the scalar types report json.Unmarshal's error, and only that
    ensures columnValue.value != "" && columnValue.id in columnMap && columnMap[columnValue.id].columnType == "color" ==>
              r.err == JsonErr(Unmarshal(columnValue.value, parse, StatusIndexOf, StatusIndex(0)).err)
    ensures columnValue.value != "" && columnValue.id in columnMap && columnMap[columnValue.id].columnType == "boolean" ==>
              r.err == JsonErr(Unmarshal(columnValue.value, parse, CheckboxOf, Checkbox("")).err)
    ensures columnValue.value != "" && columnValue.id in columnMap && columnMap[columnValue.id].columnType == "date" ==>
              r.err == JsonErr(Unmarshal(columnValue.value, parse, DateTimeOf, DateTime("", "")).err)
    // the column's type, not the data, decides which result may be set
    ensures r.result1 != "" ==> columnValue.id in columnMap && columnMap[columnValue.id].columnType in ScalarTypes
    ensures r.result2.Some? ==> columnValue.id in columnMap && columnMap[columnValue.id].columnType in ListTypes
    ensures columnValue.id in columnMap && columnMap[columnValue.id].columnType in ListTypes ==> r.err == None
    // the list types give DecodePeople's and DecodeDropDown's lists
    ensures columnValue.value != "" && columnValue.id in columnMap && columnMap[columnValue.id].columnType == "multiple-person" ==>
              r.result2 == PeopleIds(columnValue.value, parse)
    ensures columnValue.value != "" && columnValue.id in columnMap && columnMap[columnValue.id].columnType == "dropdown" ==>
              r.result2 == DropDownIds(columnValue.value, parse)
    // a text value is handed back as it is
    ensures columnValue.id in columnMap && columnMap[columnValue.id].columnType == "text" ==>
              r == DecodeResult(columnValue.value, None, None)
  {
    if columnValue.value == "" then DecodeResult("", None, None)
    else if columnValue.id !in columnMap then DecodeResult("", None, Some(InvalidColumnId(columnValue.id)))
    else
      var column := columnMap[columnValue.id];
      match column.columnType
      case "text" => DecodeResult(columnValue.value, None, None)
      case "color" =>
        var u := Unmarshal(columnValue.value, parse, StatusIndexOf, StatusIndex(0));
        DecodeResult(Itoa(u.value.index), None, JsonErr(u.err))
      case "boolean" =>
        var u := Unmarshal(columnValue.value, parse, CheckboxOf, Checkbox(""));
        DecodeResult(u.value.checked, None, JsonErr(u.err))
      case "date" =>
        var u := Unmarshal(columnValue.value, parse, DateTimeOf, DateTime("", ""));
        DecodeResult(u.value.date, None, JsonErr(u.err))
      case "multiple-person" => DecodeResult("", PeopleIds(columnValue.value, parse), None)
      case "dropdown" => DecodeResult("", DropDownIds(columnValue.value, parse), None)
      case _ => DecodeResult("", None, Some(ValueTypeNotHandled(column.columnType)))
  }

  /** DecodePeople: the user (or team) ids of a people value, as decimal text. */
  method DecodePeople(valueIn: string, parse: Parser) returns (result: Option<seq<string>>)
    ensures result == PeopleIds(valueIn, parse)
  {
    var u := Unmarshal(valueIn, parse, PeopleOf, People([]));
    if u.err.Some? {
      return None;
    }
    var ps := u.value.personsAndTeams;
    ghost var ids := IdsOf(u.value);
    var out := new string[|ps|](_ => "");
    for i := 0 to |ps|
      invariant out[..i] == Decimals(ids[..i])
    {
      out[i] := Itoa(ps[i].id);
      assert out[..i + 1] == out[..i] + [Itoa(ids[i])];
    }
    assert out[..] == out[..|ps|] && ids == ids[..|ps|];
    result := Some(out[..]);
  }

  /** DecodeDropDown: the selected label ids of a dropdown value, as decimal text. */
  method DecodeDropDown(valueIn: string, parse: Parser) returns (result: Option<seq<string>>)
    ensures result == DropDownIds(valueIn, parse)
  {
    var u := Unmarshal(valueIn, parse, DropDownOf, []);
    if u.err.Some? {
      return None;
    }
    var ids := u.value;
    var out := new string[|ids|](_ => "");
    for i := 0 to |ids|
      invariant out[..i] == Decimals(ids[..i])
    {
      out[i] := Itoa(ids[i]);
      assert out[..i + 1] == out[..i] + [Itoa(ids[i])];
    }
    assert out[..] == out[..|ids|] && ids == ids[..|ids|];
    result := Some(out[..]);
  }

  /** Each entry of Decimals reads back as the id it came from, in the same place. */
  lemma DecimalsInOrder(ids: seq<GoInt>)
    ensures |Decimals(ids)| == |ids|
    ensures forall i :: 0 <= i < |ids| ==> DecimalValue(Decimals(ids)[i]) == ids[i]
  {
    forall i | 0 <= i < |ids|
      ensures DecimalValue(Decimals(ids)[i]) == ids[i]
    {
      ItoaRoundTrip(ids[i]);
    }
  }

  /** DecodePeople keeps one entry per decoded person or team, in order, holding only
      its id; a value Unmarshal rejects gives nil. */
  lemma PeopleIdsInOrder(valueIn: string, parse: Parser)
    ensures var u := Unmarshal(valueIn, parse, PeopleOf, People([]));
            var ps := u.value.personsAndTeams;
            && (PeopleIds(valueIn, parse).None? <==> u.err.Some?)
            && (PeopleIds(valueIn, parse).Some? ==>
                  |PeopleIds(valueIn, parse).value| == |ps|
                  && forall i :: 0 <= i < |ps| ==> DecimalValue(PeopleIds(valueIn, parse).value[i]) == ps[i].id)
  {
    DecimalsInOrder(IdsOf(Unmarshal(valueIn, parse, PeopleOf, People([])).value));
  }

  /** DecodeDropDown keeps one entry per decoded id, in order; a value Unmarshal
      rejects gives nil. */
  lemma DropDownIdsInOrder(valueIn: string, parse: Parser)
    ensures var u := Unmarshal(valueIn, parse, DropDownOf, []);
            && (DropDownIds(valueIn, parse).None? <==> u.err.Some?)
            && (DropDownIds(valueIn, parse).Some? ==>
                  |DropDownIds(valueIn, parse).value| == |u.value|
                  && forall i :: 0 <= i < |u.value| ==> DecimalValue(DropDownIds(valueIn, parse).value[i]) == u.value[i])
  {
    DecimalsInOrder(Unmarshal(valueIn, parse, DropDownOf, []).value);
  }

  /** A non-empty value on a column of type `columnType` whose text parses to `doc`. */
  predicate ParsesOnColumn(columnMap: ColumnMap, columnValue: ColumnValue, parse: Parser, columnType: string, doc: Json)
  {
    && columnValue.value != ""
    && columnValue.id in columnMap
    && columnMap[columnValue.id].columnType == columnType
    && parse(columnValue.value) == Some(doc)
  }

  /** A status built from index i decodes to the decimal text of i, which reads back as i. */
  lemma StatusIndexRoundTrip(columnMap: ColumnMap, columnValue: ColumnValue, parse: Parser, index: GoInt)
    requires ParsesOnColumn(columnMap, columnValue, parse, "color", StatusIndexJson(BuildStatusIndex(index)))
    ensures DecodeValue(columnMap, columnValue, parse) == DecodeResult(Itoa(index), None, None)
    ensures DecimalValue(DecodeValue(columnMap, columnValue, parse).result1) == index
  {
    ItoaRoundTrip(index);
  }

  /** A date built without a time decodes to the date. */
  lemma DateRoundTrip(columnMap: ColumnMap, columnValue: ColumnValue, parse: Parser, date: string)
    requires ParsesOnColumn(columnMap, columnValue, parse, "date", DateTimeJson(BuildDate(date)))
    ensures DecodeValue(columnMap, columnValue, parse) == DecodeResult(date, None, None)
  {
  }

  /** A date built with a time decodes to the date: the time is dropped. */
  lemma DateTimeRoundTrip(columnMap: ColumnMap, columnValue: ColumnValue, parse: Parser, date: string, time: string)
    requires ParsesOnColumn(columnMap, columnValue, parse, "date", DateTimeJson(BuildDateTime(date, time)))
    ensures DecodeValue(columnMap, columnValue, parse) == DecodeResult(date, None, None)
  {
  }

  /** A checkbox decodes to the text it was built from. */
  lemma CheckboxRoundTrip(columnMap: ColumnMap, columnValue: ColumnValue, parse: Parser, checked: string)
    requires ParsesOnColumn(columnMap, columnValue, parse, "boolean", CheckboxJson(BuildCheckbox(checked)))
    ensures DecodeValue(columnMap, columnValue, parse) == DecodeResult(checked, None, None)
  {
  }

  /** A people value built from user ids decodes to their decimal texts, in order. */
  lemma PeopleRoundTrip(columnMap: ColumnMap, columnValue: ColumnValue, parse: Parser, people: People, userIds: seq<GoInt>)
    requires PersonsInOrder(people, userIds)
    requires ParsesOnColumn(columnMap, columnValue, parse, "multiple-person", PeopleJson(people))
    ensures DecodeValue(columnMap, columnValue, parse) == DecodeResult("", Some(Decimals(userIds)), None)
    ensures forall i :: 0 <= i < |userIds| ==>
              DecimalValue(DecodeValue(columnMap, columnValue, parse).result2.value[i]) == userIds[i]
  {
    assert PeopleOf(PeopleJson(people)) == Decoded(people, true);
    assert IdsOf(people) == userIds;
    DecimalsInOrder(userIds);
  }

  /** A checkbox value with no "checked" member (how an unchecked box may arrive)
      decodes to "", with no error; other members play no part. */
  lemma CheckboxWithoutCheckedIsEmpty(columnMap: ColumnMap, columnValue: ColumnValue, parse: Parser, m: map<string, Json>)
    requires ParsesOnColumn(columnMap, columnValue, parse, "boolean", JObj(m))
    requires "checked" !in m
    ensures DecodeValue(columnMap, columnValue, parse) == DecodeResult("", None, None)
  {
  }

  /** A status value decodes to the decimal text of its "index" member, whatever
      other members it has. */
  lemma StatusIndexOtherMembersIgnored(columnMap: ColumnMap, columnValue: ColumnValue, parse: Parser,
                                       m: map<string, Json>, index: GoInt)
    requires ParsesOnColumn(columnMap, columnValue, parse, "color", JObj(m))
    requires "index" in m && m["index"] == JInt(index)
    ensures DecodeValue(columnMap, columnValue, parse) == DecodeResult(Itoa(index), None, None)
  {
  }

  /** A status value without an "index" member, or with a null one, decodes to "0". */
  lemma StatusIndexMissingIsZero(columnMap: ColumnMap, columnValue: ColumnValue, parse: Parser, m: map<string, Json>)
    requires ParsesOnColumn(columnMap, columnValue, parse, "color", JObj(m))
    requires "index" !in m || m["index"] == JNull
    ensures DecodeValue(columnMap, columnValue, parse) == DecodeResult("0", None, None)
  {
    assert Itoa(0) == "0";
  }

  /** A date value decodes to its "date" member, whatever other members it has, as
      long as "time" is absent or a string; a missing "date" gives "". */
  lemma DateOtherMembersIgnored(columnMap: ColumnMap, columnValue: ColumnValue, parse: Parser, m: map<string, Json>)
    requires ParsesOnColumn(columnMap, columnValue, parse, "date", JObj(m))
    requires "date" !in m || m["date"].JStr?
    requires "time" !in m || m["time"].JStr?
    ensures DecodeValue(columnMap, columnValue, parse) ==
              DecodeResult(if "date" in m then m["date"].s else "", None, None)
  {
  }

  /** A checkbox value decodes to its "checked" text, whatever other members it has. */
  lemma CheckboxOtherMembersIgnored(columnMap: ColumnMap, columnValue: ColumnValue, parse: Parser, m: map<string, Json>)
    requires ParsesOnColumn(columnMap, columnValue, parse, "boolean", JObj(m))
    requires "checked" in m && m["checked"].JStr?
    ensures DecodeValue(columnMap, columnValue, parse) == DecodeResult(m["checked"].s, None, None)
  {
  }

  /** A checkbox value json.Unmarshal rejects yields "" beside the error. */
  lemma CheckboxUnmarshalErrorIsEmpty(columnMap: ColumnMap, columnValue: ColumnValue, parse: Parser)
    requires columnValue.value != "" && columnValue.id in columnMap
    requires columnMap[columnValue.id].columnType == "boolean"
    requires Unmarshal(columnValue.value, parse, CheckboxOf, Checkbox("")).err.Some?
    ensures DecodeValue(columnMap, columnValue, parse).result1 == ""
    ensures DecodeValue(columnMap, columnValue, parse).err.Some?
  {
  }

  /** A date value yields its "date" text whatever the other members hold: a wrongly
      typed "time" adds a type error but does not lose the date. */
  lemma DateKeptBesideTimeError(columnMap: ColumnMap, columnValue: ColumnValue, parse: Parser, m: map<string, Json>)
    requires ParsesOnColumn(columnMap, columnValue, parse, "date", JObj(m))
    requires "date" in m && m["date"].JStr?
    ensures DecodeValue(columnMap, columnValue, parse).result1 == m["date"].s
    ensures DecodeValue(columnMap, columnValue, parse).err.Some? <==>
              "time" in m && !m["time"].JStr? && !m["time"].JNull?
  {
  }

  /** A dropdown value `{"ids": [...]}` of in-range integers decodes to their decimal
      texts, in order, with no error; other members play no part. */
  lemma DropDownIdsDecode(columnMap: ColumnMap, columnValue: ColumnValue, parse: Parser,
                          m: map<string, Json>, ids: seq<GoInt>)
    requires ParsesOnColumn(columnMap, columnValue, parse, "dropdown", JObj(m))
    requires "ids" in m && m["ids"] == JArr(seq(|ids|, i requires 0 <= i < |ids| => JInt(ids[i])))
    ensures DecodeValue(columnMap, columnValue, parse) == DecodeResult("", Some(Decimals(ids)), None)
  {
    var decoded := SliceOf(m["ids"], IntOf);
    assert decoded.value == ids;
  }

  /** A status value json.Unmarshal rejects, for bad syntax or a wrongly typed
      "index", still yields "0", beside that error. */
  lemma ColorUnmarshalErrorYieldsZero(columnMap: ColumnMap, columnValue: ColumnValue, parse: Parser)
    requires columnValue.value != "" && columnValue.id in columnMap
    requires columnMap[columnValue.id].columnType == "color"
    requires Unmarshal(columnValue.value, parse, StatusIndexOf, StatusIndex(0)).err.Some?
    ensures DecodeValue(columnMap, columnValue, parse).result1 == "0"
    ensures DecodeValue(columnMap, columnValue, parse).result2 == None
    ensures DecodeValue(columnMap, columnValue, parse).err ==
              JsonErr(Unmarshal(columnValue.value, parse, StatusIndexOf, StatusIndex(0)).err)
  {
    assert Itoa(0) == "0";
  }

  /** A people value json.Unmarshal rejects, for bad syntax or a wrongly typed
      member, gives a nil list and no error. */
  lemma PeopleFailureIsSilent(columnMap: ColumnMap, columnValue: ColumnValue, parse: Parser)
    requires columnValue.value != "" && columnValue.id in columnMap
    requires columnMap[columnValue.id].columnType == "multiple-person"
    requires Unmarshal(columnValue.value, parse, PeopleOf, People([])).err.Some?
    ensures DecodeValue(columnMap, columnValue, parse) == DecodeResult("", None, None)
  {
  }

  /** A dropdown value json.Unmarshal rejects gives a nil list and no error. */
  lemma DropDownFailureIsSilent(columnMap: ColumnMap, columnValue: ColumnValue, parse: Parser)
    requires columnValue.value != "" && columnValue.id in columnMap
    requires columnMap[columnValue.id].columnType == "dropdown"
    requires Unmarshal(columnValue.value, parse, DropDownOf, []).err.Some?
    ensures DecodeValue(columnMap, columnValue, parse) == DecodeResult("", None, None)
  {
  }

  /** `{"index": "3"}`: a string where the index should be a number. */
  lemma ColorTypeErrorExample(columnMap: ColumnMap, columnValue: ColumnValue, parse: Parser)
    requires columnValue.value != "" && columnValue.id in columnMap
    requires columnMap[columnValue.id].columnType == "color"
    requires parse(columnValue.value) == Some(JObj(map["index" := JStr("3")]))
    ensures DecodeValue(columnMap, columnValue, parse) == DecodeResult("0", None, Some(Json(UnmarshalTypeError)))
  {
    ColorUnmarshalErrorYieldsZero(columnMap, columnValue, parse);
  }

  /** The document `{"personsAndTeams": [{"id": 11, "kind": "person"}, {"id": 22, "kind": "team"}]}`. */
  function PersonAndTeamDoc(): Json
  {
    JObj(map["personsAndTeams" := JArr([JObj(map["id" := JInt(11), "kind" := JStr("person")]),
                                        JObj(map["id" := JInt(22), "kind" := JStr("team")])])])
  }

  lemma PersonAndTeamDecodes()
    ensures PeopleOf(PersonAndTeamDoc()) == Decoded(People([PersonTeam(11, "person"), PersonTeam(22, "team")]), true)
  {
    var people := [PersonTeam(11, "person"), PersonTeam(22, "team")];
    var items := PersonAndTeamDoc().members["personsAndTeams"].items;
    assert PersonTeamOf(items[0]) == Decoded(people[0], true);
    assert PersonTeamOf(items[1]) == Decoded(people[1], true);
    var decoded := SliceOf(JArr(items), PersonTeamOf);
    assert |items| == 2 && |decoded.value| == 2;
    assert decoded.value == people;
    assert forall i :: 0 <= i < |items| ==> PersonTeamOf(items[i]).ok;
  }

  /** A person and a team decode to their ids, in order; the kinds play no part. */
  lemma PersonAndTeamExample(columnMap: ColumnMap, columnValue: ColumnValue, parse: Parser)
    requires ParsesOnColumn(columnMap, columnValue, parse, "multiple-person", PersonAndTeamDoc())
    ensures DecodeValue(columnMap, columnValue, parse) == DecodeResult("", Some(["11", "22"]), None)
  {
    PersonAndTeamDecodes();
    assert IdsOf(People([PersonTeam(11, "person"), PersonTeam(22, "team")])) == [11, 22];
    assert Itoa(11) == "11" && Itoa(22) == "22";
    assert Decimals([11, 22]) == ["11", "22"];
  }
}

=== FILE: columns.dfy ===
/** The column catalog: a board's columns folded into a map keyed by column id. */
module ColumnCatalog {
  import opened Wrappers
  import opened MondayTypes

  /** The map after inserting the columns in order, later ones overwriting earlier
      ones with the same id. */
  function Catalog(columns: seq<Column>): ColumnMap
  {
    if columns == [] then map[]
    else
      var last := columns[|columns| - 1];
      Catalog(columns[..|columns| - 1])[last.id := last]
  }

  /** CreateColumnMap, from the moment the columns have been fetched: `columns` and
      `fetchErr` are GetColumns' two results. */
  method CreateColumnMap(columns: seq<Column>, fetchErr: Option<Error>) returns (columnMap: ColumnMap, err: Option<Error>)
    ensures fetchErr.Some? ==> columnMap == map[] && err == fetchErr
    ensures fetchErr.None? ==> columnMap == Catalog(columns) && err == None
  {
    columnMap := map[];
    if fetchErr.Some? {
      return columnMap, fetchErr;
    }
    for i := 0 to |columns|
      invariant columnMap == Catalog(columns[..i])
    {
      assert columns[..i + 1][..i] == columns[..i];
      columnMap := columnMap[columns[i].id := columns[i]];
    }
    assert columns[..|columns|] == columns;
    err := None;
  }

  /** The catalog has a key for every column's id and no other key. */
  lemma {:induction false} CatalogKeys(columns: seq<Column>)
    ensures Catalog(columns).Keys == set c | c in columns :: c.id
  {
    if columns != [] {
      var front := columns[..|columns| - 1];
      CatalogKeys(front);
      assert columns == front + [columns[|columns| - 1]];
    }
  }

  /** Each key maps to one of the columns, and to one carrying that id. */
  lemma {:induction false} CatalogEntries(columns: seq<Column>)
    ensures forall id :: id in Catalog(columns) ==> Catalog(columns)[id].id == id && Catalog(columns)[id] in columns
  {
    if columns != [] {
      var front := columns[..|columns| - 1];
      CatalogEntries(front);
      assert forall c :: c in front ==> c in columns;
    }
  }

  /** Among columns sharing an id, the last one is the one kept. */
  lemma {:induction false} CatalogLastWins(columns: seq<Column>, k: nat)
    requires k < |columns|
    requires forall j :: k < j < |columns| ==> columns[j].id != columns[k].id
    ensures columns[k].id in Catalog(columns) && Catalog(columns)[columns[k].id] == columns[k]
  {
    if k < |columns| - 1 {
      var front := columns[..|columns| - 1];
      CatalogLastWins(front, k);
    }
  }
}

=== FILE: decimal.dfy ===
/** Base-10 text of Go integers, as strconv.Itoa writes it, and the reading that inverts it. */
module Decimal {

  /** The digit character for a single decimal digit. */
  function DigitChar(d: nat): char
    requires d < 10
  {
    ('0' as int + d) as char
  }

  function DigitValue(c: char): int
  {
    c as int - '0' as int
  }

  predicate IsDigit(c: char)
  {
    '0' <= c <= '9'
  }

  /** Digits of n, most significant first, with no leading zero ("0" for zero). */
  function NatDigits(n: nat): (s: string)
    ensures |s| >= 1
    ensures forall i :: 0 <= i < |s| ==> IsDigit(s[i])
    ensures s[0] == '0' ==> n == 0
    decreases n
  {
    if n < 10 then [DigitChar(n)] else NatDigits(n / 10) + [DigitChar(n % 10)]
  }

  /** The shape strconv.Itoa produces: an optional '-', then digits without a leading
      zero, and never "-0". */
  predicate Canonical(s: string)
  {
    var digits := if |s| > 0 && s[0] == '-' then s[1..] else s;
    && |digits| >= 1
    && (forall i :: 0 <= i < |digits| ==> IsDigit(digits[i]))
    && (|digits| > 1 ==> digits[0] != '0')
    && (|s| > 0 && s[0] == '-' ==> digits != "0")
  }

  /** strconv.Itoa: the decimal text of n. */
  function Itoa(n: int): (s: string)
    ensures Canonical(s)
    ensures s[0] == '-' <==> n < 0
  {
    if n < 0 then "-" + NatDigits(-n) else NatDigits(n)
  }

  /** Value of a string of digits (reference reading, most significant first). */
  function DigitsValue(s: string): int
  {
    if s == [] then 0 else DigitsValue(s[..|s| - 1]) * 10 + DigitValue(s[|s| - 1])
  }

  /** Value of canonical decimal text: the reading strconv.Atoi performs on it. */
  function DecimalValue(s: string): int
  {
    if |s| > 0 && s[0] == '-' then -DigitsValue(s[1..]) else DigitsValue(s)
  }

  lemma {:induction false} NatDigitsValue(n: nat)
    ensures DigitsValue(NatDigits(n)) == n
    decreases n
  {
    if n >= 10 {
      NatDigitsValue(n / 10);
      var s := NatDigits(n);
      assert s[..|s| - 1] == NatDigits(n / 10);
    }
  }

  /** Reading back what Itoa wrote gives the number again. */
  lemma ItoaRoundTrip(n: int)
    ensures DecimalValue(Itoa(n)) == n
  {
    if n < 0 {
      NatDigitsValue(-n);
      assert Itoa(n)[1..] == NatDigits(-n);
    } else {
      NatDigitsValue(n);
    }
  }

  /** Distinct numbers have distinct decimal texts. */
  lemma ItoaInjective(a: int, b: int)
    ensures Itoa(a) == Itoa(b) ==> a == b
  {
    ItoaRoundTrip(a);
    ItoaRoundTrip(b);
  }

  lemma {:induction false} LeadingDigitPositive(s: string)
    requires |s| >= 1 && s[0] != '0'
    requires forall i :: 0 <= i < |s| ==> IsDigit(s[i])
    ensures DigitsValue(s) >= 1
    decreases |s|
  {
    if |s| > 1 {
      LeadingDigitPositive(s[..|s| - 1]);
    }
  }

  lemma {:induction false} DigitsRoundTrip(s: string)
    requires |s| >= 1 && (forall i :: 0 <= i < |s| ==> IsDigit(s[i]))
    requires |s| > 1 ==> s[0] != '0'
    ensures DigitsValue(s) >= 0 && NatDigits(DigitsValue(s)) == s
    decreases |s|
  {
    if |s| > 1 {
      var front := s[..|s| - 1];
      DigitsRoundTrip(front);
      LeadingDigitPositive(front);
      var n := DigitsValue(s);
      assert n / 10 == DigitsValue(front) && n % 10 == DigitValue(s[|s| - 1]);
      assert s == front + [s[|s| - 1]];
    }
  }

  /** Every canonical decimal text is what Itoa writes for its value: together with
      ItoaRoundTrip, Itoa is a bijection between the integers and canonical texts. */
  lemma CanonicalIsItoa(s: string)
    requires Canonical(s)
    ensures Itoa(DecimalValue(s)) == s
  {
    if |s| > 0 && s[0] == '-' {
      var digits := s[1..];
      DigitsRoundTrip(digits);
      if |digits| == 1 {
        assert DigitsValue(digits) != 0;
      } else {
        LeadingDigitPositive(digits);
      }
      assert s == "-" + digits;
    } else {
      DigitsRoundTrip(s);
    }
  }
}

=== FILE: json.dfy ===
/** The part of Go's encoding/json this codec relies on: a parsed document, and the
    rules by which json.Unmarshal stores it into typed destinations. */
module GoJson {
  import opened Wrappers

  /** An already-parsed JSON document. A number written as a plain integer literal
      (what strconv.ParseInt accepts) is JInt; one with a fraction or an exponent is
      JNonInteger. An object is a key to value map: the parser settles duplicate keys. */
  datatype Json =
    | JNull
    | JBool(b: bool)
    | JInt(i: int)
    | JNonInteger
    | JStr(s: string)
    | JArr(items: seq<Json>)
    | JObj(members: map<string, Json>)

  /** The text-to-document stage of json.Unmarshal: None is a syntax error. */
  type Parser = string -> Option<Json>

  const MinInt: int := -0x8000_0000_0000_0000
  const MaxInt: int := 0x7fff_ffff_ffff_ffff

  /** Go's int on a 64-bit platform. */
  type GoInt = x: int | MinInt <= x <= MaxInt

  datatype JsonError = SyntaxError | UnmarshalTypeError

  /** What decoding one JSON value leaves in a Go destination, and whether it did so
      without recording a type error. */
  datatype Decoded<T> = Decoded(value: T, ok: bool)

  /** The outcome of json.Unmarshal: the destination and the error returned. */
  datatype Unmarshalled<T> = Unmarshalled(value: T, err: Option<JsonError>)

  /** A JSON value stored into an int: null leaves the zero value; anything but an
      integer literal in range is a type error that leaves the zero value. */
  function IntOf(j: Json): Decoded<GoInt>
  {
    match j
    case JNull => Decoded(0, true)
    case JInt(n) => if MinInt <= n <= MaxInt then Decoded(n, true) else Decoded(0, false)
    case _ => Decoded(0, false)
  }

  /** A JSON value stored into a string. */
  function StringOf(j: Json): Decoded<string>
  {
    match j
    case JNull => Decoded("", true)
    case JStr(s) => Decoded(s, true)
    case _ => Decoded("", false)
  }

  /** A JSON value stored into a slice: null gives the empty (nil) slice, an array
      gives one element per item, each decoded on its own. */
  function SliceOf<T>(j: Json, elem: Json -> Decoded<T>): Decoded<seq<T>>
  {
    match j
    case JNull => Decoded([], true)
    case JArr(items) =>
      Decoded(seq(|items|, i requires 0 <= i < |items| => elem(items[i]).value),
              forall i :: 0 <= i < |items| ==> elem(items[i]).ok)
    case _ => Decoded([], false)
  }

  /** A JSON value stored into a map keyed by string: every member becomes an entry,
      also one whose value is a type error (it then holds the zero value). */
  function MapOf<T>(j: Json, elem: Json -> Decoded<T>): Decoded<map<string, T>>
  {
    match j
    case JNull => Decoded(map[], true)
    case JObj(m) =>
      Decoded(map k | k in m :: elem(m[k]).value, forall k :: k in m ==> elem(m[k]).ok)
    case _ => Decoded(map[], false)
  }

  /** A JSON value stored into a struct whose fields are read from the object's members
      by `fields`; null leaves the zero struct. */
  function StructOf<T>(j: Json, fields: map<string, Json> -> Decoded<T>, zero: T): Decoded<T>
  {
    match j
    case JNull => Decoded(zero, true)
    case JObj(m) => fields(m)
    case _ => Decoded(zero, false)
  }

  /** The member stored under a struct field's tag; an absent member acts as null. */
  function Member(m: map<string, Json>, tag: string): Json
  {
    if tag in m then m[tag] else JNull
  }

  /** json.Unmarshal into a fresh destination: a syntax error leaves it untouched;
      a type error still stores everything that did decode. */
  function Unmarshal<T>(text: string, parse: Parser, into: Json -> Decoded<T>, zero: T): Unmarshalled<T>
  {
    match parse(text)
    case None => Unmarshalled(zero, Some(SyntaxError))
    case Some(j) =>
      var d := into(j);
      Unmarshalled(d.value, if d.ok then None else Some(UnmarshalTypeError))
  }
}

=== FILE: labels.dfy ===
/** Label tables of status (color) and dropdown columns, read from a column's settings. */
module Labels {
  import opened Wrappers
  import opened GoJson
  import opened Decimal
  import opened MondayTypes

  /** One printed line: a label's index and its name. */
  datatype Label = Label(index: string, name: string)

  /** Status settings: index to label name, and index to display position. */
  datatype StatusLabels = StatusLabels(labels: map<string, string>, labelPositions: map<string, GoInt>)

  datatype DropdownEntry = DropdownEntry(id: GoInt, name: string)

  function StatusLabelsOf(j: Json): Decoded<StatusLabels>
  {
    StructOf(j, (m: map<string, Json>) =>
      var labels := MapOf(Member(m, "labels"), StringOf);
      var positions := MapOf(Member(m, "label_positions_v2"), IntOf);
      Decoded(StatusLabels(labels.value, positions.value), labels.ok && positions.ok),
      StatusLabels(map[], map[]))
  }

  function DropdownEntryOf(j: Json): Decoded<DropdownEntry>
  {
    StructOf(j, (m: map<string, Json>) =>
      var id, name := IntOf(Member(m, "id")), StringOf(Member(m, "name"));
      Decoded(DropdownEntry(id.value, name.value), id.ok && name.ok),
      DropdownEntry(0, ""))
  }

  /** The `{"labels": [...]}` shape of dropdown settings. */
  function DropdownLabelsOf(j: Json): Decoded<seq<DropdownEntry>>
  {
    StructOf(j, (m: map<string, Json>) => SliceOf(Member(m, "labels"), DropdownEntryOf), [])
  }

  function StatusSettings(settings: string, parse: Parser): Unmarshalled<StatusLabels>
  {
    Unmarshal(settings, parse, StatusLabelsOf, StatusLabels(map[], map[]))
  }

  function DropdownSettings(settings: string, parse: Parser): Unmarshalled<seq<DropdownEntry>>
  {
    Unmarshal(settings, parse, DropdownLabelsOf, [])
  }

  /** The status loop: one line per key of `labels`, taken in whatever order the
      map yields them. */
  method PrintStatusLabels(labels: map<string, string>) returns (printed: seq<Label>)
    ensures |printed| == |labels|
    ensures forall l :: l in printed <==> l.index in labels && labels[l.index] == l.name
  {
    printed := [];
    var rest := labels.Keys;
    while rest != {}
      invariant rest <= labels.Keys
      invariant |printed| == |labels.Keys - rest|
      invariant forall l :: l in printed <==> l.index in labels.Keys - rest && labels[l.index] == l.name
      decreases |rest|
    {
      var index :| index in rest;
      assert labels.Keys - (rest - {index}) == (labels.Keys - rest) + {index};
      printed := printed + [Label(index, labels[index])];
      rest := rest - {index};
    }
    assert labels.Keys - rest == labels.Keys;
  }

  /** The dropdown loop: one line per entry, in order, the id in decimal. */
  method PrintDropdownLabels(entries: seq<DropdownEntry>) returns (printed: seq<Label>)
    ensures |printed| == |entries|
    ensures forall i :: 0 <= i < |entries| ==> printed[i] == Label(Itoa(entries[i].id), entries[i].name)
  {
    printed := [];
    for i := 0 to |entries|
      invariant |printed| == i
      invariant forall k :: 0 <= k < i ==> printed[k] == Label(Itoa(entries[k].id), entries[k].name)
    {
      printed := printed + [Label(Itoa(entries[i].id), entries[i].name)];
    }
  }

  /** DecodeLabels: the (index, name) lines it prints for a column's settings, or the
      error it stops on. Status labels come out in no promised order. */
  method DecodeLabels(settings: string, columnType: string, parse: Parser) returns (printed: seq<Label>, err: Option<Error>)
    // other column types print nothing and report nothing
    ensures columnType != "color" && columnType != "dropdown" ==> printed == [] && err == None
    // settings that do not decode stop before anything is printed
    ensures columnType == "color" && StatusSettings(settings, parse).err.Some? ==>
              printed == [] && err == JsonErr(StatusSettings(settings, parse).err)
    ensures columnType == "dropdown" && DropdownSettings(settings, parse).err.Some? ==>
              printed == [] && err == JsonErr(DropdownSettings(settings, parse).err)
    // status: one line per key of `labels`, each with that key's name
    ensures columnType == "color" && StatusSettings(settings, parse).err.None? ==>
              var labels := StatusSettings(settings, parse).value.labels;
              && err == None
              && |printed| == |labels|
              && (forall l :: l in printed <==> l.index in labels && labels[l.index] == l.name)
    // dropdown: one line per entry, in the settings' order, the id in decimal
    ensures columnType == "dropdown" && DropdownSettings(settings, parse).err.None? ==>
              var entries := DropdownSettings(settings, parse).value;
              && err == None
              && |printed| == |entries|
              && forall i :: 0 <= i < |entries| ==> printed[i] == Label(Itoa(entries[i].id), entries[i].name)
  {
    printed, err := [], None;
    if columnType == "color" {
      var u := StatusSettings(settings, parse);
      if u.err.Some? {
        return [], JsonErr(u.err);
      }
      printed := PrintStatusLabels(u.value.labels);
    }
    if columnType == "dropdown" {
      var u := DropdownSettings(settings, parse);
      if u.err.Some? {
        return [], JsonErr(u.err);
      }
      printed := PrintDropdownLabels(u.value);
    }
  }
}

=== FILE: types.dfy ===
/** The records of the client package the codec works on: column metadata, column
    values, the wire shapes of typed values (with their JSON tags) and the errors. */
module MondayTypes {
  import opened Wrappers
  import opened GoJson

  /** A board's column: `columnType` is the type tag ("text", "color", ...) and
      `settings` the raw settings_str the label tables are read from. */
  datatype Column = Column(id: string, title: string, columnType: string, settings: string)

  /** Column id to column, for one board. */
  type ColumnMap = map<string, Column>

  /** One item's value for one column: opaque JSON text, "" when unset. */
  datatype ColumnValue = ColumnValue(id: string, value: string)

  datatype DateTime = DateTime(date: string, time: string)
  datatype StatusIndex = StatusIndex(index: GoInt)
  datatype PersonTeam = PersonTeam(id: GoInt, kind: string)
  datatype People = People(personsAndTeams: seq<PersonTeam>)
  datatype Checkbox = Checkbox(checked: string)

  datatype Error =
    | InvalidColumnId(id: string)
    | ValueTypeNotHandled(columnType: string)
    | Json(cause: JsonError)
    | RequestFailed(reason: string)

  function JsonErr(e: Option<JsonError>): Option<Error>
  {
    match e
    case None => None
    case Some(cause) => Some(Json(cause))
  }

  // Decoding by JSON tag (`json:"date"`, `json:"index"`, ...).

  function DateTimeOf(j: Json): Decoded<DateTime>
  {
    StructOf(j, (m: map<string, Json>) =>
      var date, time := StringOf(Member(m, "date")), StringOf(Member(m, "time"));
      Decoded(DateTime(date.value, time.value), date.ok && time.ok),
      DateTime("", ""))
  }

  function StatusIndexOf(j: Json): Decoded<StatusIndex>
  {
    StructOf(j, (m: map<string, Json>) =>
      var index := IntOf(Member(m, "index"));
      Decoded(StatusIndex(index.value), index.ok),
      StatusIndex(0))
  }

  function CheckboxOf(j: Json): Decoded<Checkbox>
  {
    StructOf(j, (m: map<string, Json>) =>
      var checked := StringOf(Member(m, "checked"));
      Decoded(Checkbox(checked.value), checked.ok),
      Checkbox(""))
  }

  function PersonTeamOf(j: Json): Decoded<PersonTeam>
  {
    StructOf(j, (m: map<string, Json>) =>
      var id, kind := IntOf(Member(m, "id")), StringOf(Member(m, "kind"));
      Decoded(PersonTeam(id.value, kind.value), id.ok && kind.ok),
      PersonTeam(0, ""))
  }

  function PeopleOf(j: Json): Decoded<People>
  {
    StructOf(j, (m: map<string, Json>) =>
      var entries := SliceOf(Member(m, "personsAndTeams"), PersonTeamOf);
      Decoded(People(entries.value), entries.ok),
      People([]))
  }

  // Encoding (json.Marshal at the level of documents), each proved to decode back to the value it encodes.

  function DateTimeJson(v: DateTime): (j: Json)
    ensures DateTimeOf(j) == Decoded(v, true)
  {
    JObj(map["date" := JStr(v.date), "time" := JStr(v.time)])
  }

  function StatusIndexJson(v: StatusIndex): (j: Json)
    ensures StatusIndexOf(j) == Decoded(v, true)
  {
    JObj(map["index" := JInt(v.index)])
  }

  function CheckboxJson(v: Checkbox): (j: Json)
    ensures CheckboxOf(j) == Decoded(v, true)
  {
    JObj(map["checked" := JStr(v.checked)])
  }

  function PersonTeamJson(v: PersonTeam): (j: Json)
    ensures PersonTeamOf(j) == Decoded(v, true)
  {
    JObj(map["id" := JInt(v.id), "kind" := JStr(v.kind)])
  }

  function PeopleJson(v: People): (j: Json)
    ensures PeopleOf(j) == Decoded(v, true)
  {
    var ps := v.personsAndTeams;
    var items := seq(|ps|, i requires 0 <= i < |ps| => PersonTeamJson(ps[i]));
    assert forall i :: 0 <= i < |items| ==> PersonTeamOf(items[i]) == Decoded(ps[i], true);
    var m := map["personsAndTeams" := JArr(items)];
    assert SliceOf(Member(m, "personsAndTeams"), PersonTeamOf).value == ps;
    JObj(m)
  }
}

=== FILE: wrappers.dfy ===
/** Go's "value or nothing": a nil slice, an absent error. */
module Wrappers {
  datatype Option<+T> = None | Some(value: T)
}
